=== FILE: README.md ===
# Companion-window session state machine

A Dafny model of the background script of a browser extension. The script splits the screen between the
user's browser window (the *main window*) and a narrow *companion popup* pinned to the right edge. Clicking
the toolbar action toggles that popup between hidden and shown. The script remembers enough of the main
window's original geometry to restore it when the popup is closed.

The model is functional. A `World` holds four parts:

- the live windows (`Desktop`: a table from window id to type and bounds, the tabs with their URLs, the
  focused window, and the id the next created window gets);
- the durable `session` key of local storage (`Option<Session>`);
- the read-only sync settings `aiSiteUrl` and `defaultAiSiteUrl` (`Config`);
- the in-memory cache `sessionState` (`Session`).

Each event handler is a pure function from world to world:

- `InitStateFromStorage` (startup and the first step of every click);
- `ClearSession`;
- `OnInstalled`;
- `OnClicked`, the toolbar action;
- `OnRemoved`, the window-removal event. `ExternalClose` is the user closing a window, followed by that event;
- `Restart`, the script being loaded again within one browser session, with its all-null in-memory record
  (`background.js:4-8`), and `OnStartup`, which reconciles after it.

A window-manager call addressed to an id that no longer resolves answers `None` (module `Windows`). The
handler then takes the path the script's `try`/`catch` takes.

Files:

- `wrappers.dfy`: `Option`.
- `windows.dfy`: the window manager as the script uses it: `windows.get/update/remove/create` and `tabs.query`.
- `geometry.dfy`: choice of display and the split-screen rectangles.
- `background.dfy`: the session state machine.
- `properties.dfy`: the lemmas relating the handlers.

Modelling choices:

- Window ids are positive integers (`WindowId`), and `null` is `None`. With positive ids, the truthiness tests on
  ids (`background.js:13`, `91`, `99`, `148`, `150`) mean the same as the `!== null` test at `background.js:70`.
- String settings are truthy when present and non-empty, as JavaScript's `||` treats them.
- The origin of a URL (`new URL(url).origin`) is an opaque function parameter `originOf: string -> Option<string>`.
  `None` stands for a string that is not a URL, such as a setting typed without a scheme. `tabs.query` with the
  origin's URL pattern returns the tabs whose URL has that origin, in tab order.
- A handler that rejects returns the world as it stood at that point, and whatever it did before is kept. The
  click handler rejects in three places:
  - the target URL has no origin (`background.js:50`): only reconciliation has happened (`OnClicked`);
  - there is no display at all (`background.js:64`): reconciliation and cleanup are kept;
  - the clicked window is gone before the create branch (`background.js:115`): likewise.
- The toggle's `catch` also receives a failed update of the main window (`background.js:91-104`). In that case the
  session is cleared while the popup stays open and untracked (`MissingMainClears`). A later click's cleanup
  removes that popup only if it still holds a tab on the target origin (`CleanupRemovesExactlyOrphans`);
  otherwise it stays open.
- Points of the code that are easy to misread, modelled as written:
  - a *maximized* popup takes the show branch, like a minimized one (`background.js:73`);
  - show and hide write nothing to storage;
  - a stale popup found by the toggle clears the session and creates nothing (`background.js:106-111`);
  - there is no explicit-URL path and no `lastTargetUrl`.

  In practice the stale-popup path of the toggle is reached only when storage no longer agrees with memory. When
  they agree, reconciliation discards the stale session first, and the same click creates a fresh one
  (`StaleStoredSessionRecreates`).
- The cleanup's own removals also fire `windows.onRemoved`. Those events concern untracked windows, so they change
  nothing (`OtherRemovalIgnored`).

## Model

| member | source | states |
|---|---|---|
| Background.ClearSession | background.js:26-34 | the `session` key is absent and memory is the all-null record afterwards; windows and settings are untouched |
| Background.OnInstalled | background.js:38-41 | installing leaves no session anywhere and touches no window; a reconciliation right after it changes nothing |
| Background.InitStateFromStorage | background.js:11-23 | the three reconciliation outcomes: a stored popup that resolves makes memory equal the stored record; one that does not resolve resets memory to all-null and removes the key; no stored popup id leaves everything unchanged. Afterwards the store never names a missing popup |
| SessionProperties.ReconcileIdempotent | background.js:11-23 | a second reconciliation after the first changes nothing |
| SessionProperties.ClearedSessionIsQuiet | background.js:26-34 | after `clearSession`, neither a reconciliation nor any window-removal event changes the world |
| Background.TargetUrl | background.js:46-47 | the target URL is `aiSiteUrl` when it is set and non-empty, else `defaultAiSiteUrl` when set and non-empty, else the Perplexity fallback; it is never empty |
| Background.SaveAiSiteUrl | options.js:15-32 | saving a non-empty URL makes it the target; saving an empty one removes the setting, so the default setting or the fallback is used |
| Geometry.FirstPrimary | background.js:63 | finds the index of the first display flagged primary, or reports that none is flagged |
| Geometry.PrimaryDisplay | background.js:62-63 | the display used is the first one flagged primary, or `displayInfo[0]` when none is; there is none only when the list is empty |
| Geometry.SplitLayout | background.js:64-67 | the popup is 400 wide at x = work-area width minus 400 and y = 0, the main window starts at 0,0 (the work area's own left and top are ignored, so the popup is flush with the right edge only for a work area starting at x = 0), the two widths add up to the work-area width, the popup starts where the main window ends, and both are as tall as the work area |
| Geometry.FullHdLayout | background.js:83-94 | on a 1920x1080 work area the popup rectangle is {1520, 0, 400, 1080} and the main rectangle is {0, 0, 1520, 1080} |
| Background.SweepOne | background.js:52-58 | one cleanup iteration removes the looked-up window exactly when it is an untracked popup, and otherwise changes nothing, including when the lookup fails |
| Background.CleanupOrphans | background.js:50-59 | the cleanup only removes windows, leaves every surviving window exactly as it was, allocates no id and keeps the window table well-formed |
| SessionProperties.CleanupRemovesSweptWindows | background.js:51-59 | whatever the order of the query's tabs, the loop removes exactly the untracked popups among the windows holding them |
| SessionProperties.CleanupRemovesExactlyOrphans | background.js:50-59 | a window survives the cleanup if and only if it is not an untracked popup with a tab on the target origin; non-popup windows and the tracked popup always survive, unchanged |
| SessionProperties.CleanupKeeps | background.js:54 | a window the cleanup may not remove is still there afterwards |
| Background.Prepare | background.js:44-59 | the click's first phase fails exactly when the target URL has no origin; otherwise memory and storage are as reconciliation left them, settings are unchanged, windows are only removed, survivors are untouched, no id is allocated and the window table stays well-formed |
| Background.UpdateMain | background.js:91-104 | with no recorded main window nothing happens; a recorded main window that is gone clears the session and touches no window; otherwise the main window takes the patch and the session is kept |
| Background.Show | background.js:73-95 | the popup ends at the popup rectangle (when it exists and is not also the main window); no window appears or disappears, no id is allocated, settings are unchanged |
| Background.Hide | background.js:96-105 | the popup ends minimized (when it exists and is not also the main window); no window appears or disappears, no id is allocated, settings are unchanged |
| Background.Toggle | background.js:70-111 | a tracked popup that is gone clears the session; in every case the set of windows, the next id and the settings are unchanged and the window table stays well-formed |
| Background.CreateSession | background.js:114-143 | a clicked window that is gone changes nothing; otherwise exactly one window appears, under the next id, and memory and storage both record that popup, the clicked window and its bounds before the resize |
| Background.Activate | background.js:62-145 | with no display the handler stops without effect; otherwise settings are unchanged, ids only grow and the window table stays well-formed |
| Background.OnClicked | background.js:43-145 | a target URL without an origin stops the click after reconciliation; in every case settings are unchanged, the next window id never decreases, the only window that can appear is the one under the next unused id (so no earlier id is reused), and the window table stays well-formed |
| Background.OnRemoved | background.js:147-165 | the removal of the tracked popup clears memory and storage; windows, tabs, the next id and settings keep their shape |
| Background.ExternalClose | background.js:147-165 | the closed window is gone, no other window appears or disappears and no id is allocated |
| Windows.GetWindow | background.js:72 | a lookup succeeds exactly when the window exists, and then answers its type and bounds |
| Windows.UpdateWindow | background.js:83-90 | an update fails exactly when the window is gone; otherwise only that window changes, in the fields the patch names, and focus moves to it when asked |
| Windows.RemoveWindow | background.js:56 | a removal fails exactly when the window is gone; otherwise the window and its tabs go, the focus is dropped only if it was on that window, and nothing else changes |
| Windows.CreateWindow | background.js:126-133 | a created window gets the next unused id, the given type and bounds, and the focus; exactly one tab on the URL is appended to the existing tabs, and the next id moves on by one |
| Windows.QueryTabs | background.js:50 | the query answers exactly the tabs whose URL has the given origin |
| SessionProperties.ShowPlacesSplit | background.js:73-95 | a minimized or maximized popup becomes normal, focused and placed at the popup rectangle; the tracked main window becomes normal at the main rectangle; all other windows, the session and the store are unchanged |
| SessionProperties.HideMinimizes | background.js:96-105 | in any other popup state, the popup is minimized and the tracked main window maximized, with their positions, all other windows, the session and the store unchanged |
| SessionProperties.ToggleAlternates | background.js:70-105 | the show and hide branches are complementary: after either one, the popup's state selects the other on the next click |
| SessionProperties.StalePopupClears | background.js:106-111 | a tracked popup that no longer resolves clears the session in memory and storage and touches no window |
| SessionProperties.MissingMainClears | background.js:91-108 | when the tracked main window is gone, its update fails inside the toggle's `try`: the session is cleared and the popup stays open, untracked |
| SessionProperties.StaleTrackedPopupClears | background.js:69-111 | a click with a stale tracked popup and no stored popup id clears the session; no window is created or resized, and the cleanup only removes windows |
| SessionProperties.CreateRecordsSession | background.js:114-143 | with no session after reconciliation, the click records the clicked window's id and its bounds as they were before the resize. That window moves to the main rectangle, and a fresh focused popup opens at the popup rectangle on the target URL. Memory and store then both hold exactly that session |
| SessionProperties.StaleStoredSessionRecreates | background.js:13-20 | a click with a stored session whose popup has disappeared behaves exactly like a click after `clearSession`, so it creates a fresh session under a new popup id |
| SessionProperties.AbortedActivationWritesNothing | background.js:62-115 | an activation that stops early writes nothing. This covers a click with no display and a create branch whose clicked window is gone. Memory and storage are those left by reconciliation, and windows are only removed by the cleanup |
| SessionProperties.ClickKeepsLiveSession | background.js:43-111 | a click during a live session keeps the same session in memory and storage and flips the toggle. It either restores the split layout (show) or minimizes the popup and maximizes the main window (hide) |
| SessionProperties.TeardownRestoresBounds | background.js:147-165 | when the tracked popup is removed, the main window returns to exactly the recorded bounds if it still exists; otherwise the failure is ignored. No other window changes, and the session is cleared |
| SessionProperties.OtherRemovalIgnored | background.js:147-148 | the removal of any window other than the tracked popup leaves the world unchanged |
| SessionProperties.ClicksKeepLiveSession | background.js:43-111 | over any sequence of clicks, each from any window and with any non-empty display list, a live session stays live, the settings are unchanged, and the toggle's branch depends only on the parity of the number of clicks |
| SessionProperties.CloseLiveSessionRestores | background.js:147-163 | closing the popup of a live session restores the main window to the recorded bounds and clears memory and storage |
| SessionProperties.SessionRoundTrip | background.js:115-163 | create, then any number of further clicks from any windows and with any display lists, then an external close of the popup, with the script not loaded again in between: the main window is back at exactly its pre-session bounds and no session remains |
| SessionProperties.ToggleCycle | background.js:70-165 | create (popup normal), click (popup minimized), click (split layout restored), close the popup (main window at its original bounds, no session) |
| Background.Restart | background.js:4-8 | a script loaded again within one browser session holds the all-null record in memory while windows, their ids, storage and settings persist |
| Background.OnStartup | background.js:37 | a fresh instance takes the stored record when its popup id still resolves to some window, discards it when it does not, and starts empty when none is stored |
| SessionProperties.StartupResumesLiveSession | background.js:11-23 | reconciliation in a fresh instance picks a live session back up unchanged |
| SessionProperties.RestartSkipsRestore | background.js:147-165 | after the script is loaded again, closing the popup of a live session leaves the main window as it is and the record in storage |
| SessionProperties.RestartedCloseLeavesSplit | background.js:114-165 | create, restart, close the popup: the main window keeps the split-layout rectangle and storage still names the closed popup |
| Background.OnRemovedFromStore | background.js:147-165 | the teardown that falls back on the stored record when the cache is empty and the stored popup is the removed window; any other removal with an empty cache changes nothing; with a cached popup id it is the teardown as written |
| Background.ExternalCloseFromStore | background.js:147-165 | an external close with that teardown; it agrees with the as-written close whenever the cache holds a popup id |
| SessionProperties.RestartedCloseRestores | background.js:147-165 | with the storage-backed teardown, closing the popup of a live session after a restart restores the main window to the recorded bounds and clears memory and storage |
| SessionProperties.SessionRoundTripAcrossRestart | background.js:114-165 | create, any number of clicks, restart, close the popup with the storage-backed teardown: the main window is back at its pre-session bounds and no session remains |
| SessionProperties.ClickKeepsInvariants | background.js:43-145 | a click, however it ends, keeps storage holding only whole records and memory all-null or a copy of storage (the cache of `background.js:1`), and keeps every tab, the focus and each id pointing at a live window |
| SessionProperties.HandlersKeepInvariants | background.js:26-41 | a window close (`background.js:147-165`), installation, a reload of the script and startup reconciliation keep storage holding only whole records and memory all-null or a copy of storage; a close also keeps the window table intact, and so does the storage-backed teardown for the cache invariant |

## Findings

| source | as written | input that shows it | evidently intended | confidence | as-written member | corrected member |
|---|---|---|---|---|---|---|
| background.js:147-165 | the removal handler reads only the in-memory record, which a newly loaded script holds as all-null | a live session; the script is loaded again (an idle service worker is stopped and then woken by the removal event); the user closes the popup. The main window keeps the split layout and storage keeps the stale record | the main window is restored from the stored record, which the comment at `background.js:1` calls the source of truth | not executed; medium | SessionProperties.RestartedCloseLeavesSplit | Background.OnRemovedFromStore |

The as-written handlers remain the model of the script (`OnRemoved`, `ExternalClose`). `RestartSkipsRestore` and
`RestartedCloseLeavesSplit` show the discrepancy. `RestartedCloseRestores` and `SessionRoundTripAcrossRestart` prove
the intended restore for the corrected teardown. The stale record itself is discarded by the next click's
reconciliation (`StaleStoredSessionRecreates`).

## Left out

- Tab zoom reset (`background.js:75-82`, `134-140`): best effort, with every failure swallowed and no effect on the session; modelled as doing nothing.
- `runtime.onInstalled` opening the options page (`background.js:38-41`); only its `clearSession` is modelled (`OnInstalled`).
- Console logging.
- Parsing URLs into origins: `originOf` is a parameter. Only the outcome "has an origin" or "not a URL" is modelled. An invalid match pattern rejected by `tabs.query` counts as "not a URL".
- Asynchronous interleaving: each handler runs atomically, so the race between `windows.onRemoved` and an in-flight `action.onClicked` is not modelled.
- Window ids across browser sessions: a browser start closes the windows and gives the new ones fresh ids, which may coincide with ids recorded in an earlier session. `Restart` models only a reload within one browser session. Reconciliation (`background.js:13-16`) checks only that the stored popup id resolves, so it cannot tell a reused id from the original popup and would adopt an unrelated window under it.
- Failure of storage writes, and failure of window-manager calls on a window that was looked up earlier in the same handler: with atomic handlers, such a window cannot vanish in between.
- TeardownRestoresBounds, CloseLiveSessionRestores, SessionRoundTrip, ToggleCycle, RestartedCloseRestores, SessionRoundTripAcrossRestart: their exact restore relies on the model of `windows.update`, which sets exactly the fields it names. The browser's own validation and adjustment of the arguments is not modelled. A browser may refuse explicit bounds combined with a `maximized`, `minimized` or `fullscreen` state, which the restore at `background.js:152-158` sends when the main window was in such a state at creation. It may also clamp sizes to the screen. In the model, maximizing does not change the reported bounds.
- Focus changes other than an explicit `focused: true`, window creation and removal of the focused window.
- The launcher popup's `openSidePanel` / `toggleSidePanel` messages (`src/popup.js:61`, `68`): the background script has no handler for them, so they do nothing. DOM rendering in the launcher and options pages is not modelled.
- Build packaging (`webpack.config.js`) is not part of this model.

=== FILE: background.dfy ===
/**
  The companion-window session state machine of the extension's background
  script. Every browser event handler is a pure function from one `World` to
  the next; each handler runs atomically, with no interleaving of events.
 */
module Background {
  import opened Wrappers
  import opened Windows
  import opened Geometry

  /** The `sessionState` record, both in memory and under the `session` key of local storage. */
  datatype Session = Session(popupWindowId: Option<WindowId>,
                             originalMainWindowId: Option<WindowId>,
                             originalMainWindowBounds: Option<Bounds>)

  /** The all-null record the script starts with and `clearSession` resets to. */
  const NoSession := Session(None, None, None)

  /** The two sync-storage settings read on activation; `None` is a missing key. */
  datatype Config = Config(aiSiteUrl: Option<string>, defaultAiSiteUrl: Option<string>)

  const FallbackUrl := "https://www.perplexity.ai/"

  /**
    Everything the handlers read or change: the live windows, the durable
    `session` key (`None` when absent), the read-only configuration and the
    in-memory cache.
   */
  datatype World = World(desktop: Desktop, store: Option<Session>, config: Config, memory: Session)

  /** JavaScript truthiness of an optional string setting: present and non-empty. */
  predicate Truthy(s: Option<string>) {
    s.Some? && s.value != ""
  }

  /** The popup id recorded in durable storage, if the stored record has one. */
  function StoredPopup(w: World): Option<WindowId> {
    if w.store.Some? then w.store.value.popupWindowId else None
  }

  /** `clearSession`: removes the `session` key and resets memory to all-null. */
  function ClearSession(w: World): (r: World)
    ensures r.memory == NoSession && r.store.None?
    ensures r.desktop == w.desktop && r.config == w.config
  {
    w.(store := None, memory := NoSession)
  }

  /**
    `initStateFromStorage`: a stored record whose popup still resolves becomes
    the in-memory state; one whose popup is gone is discarded everywhere; with
    no stored popup id nothing happens.
   */
  function InitStateFromStorage(w: World): (r: World)
    ensures r.desktop == w.desktop && r.config == w.config
    ensures StoredPopup(w).None? ==> r == w
    ensures StoredPopup(w).Some? && StoredPopup(w).value in w.desktop.windows ==>
              r.memory == w.store.value && r.store == w.store
    ensures StoredPopup(w).Some? && StoredPopup(w).value !in w.desktop.windows ==>
              r.memory == NoSession && r.store.None?
    ensures StoredPopup(r).Some? ==> StoredPopup(r).value in r.desktop.windows
  {
    match StoredPopup(w)
    case None => w
    case Some(id) =>
      match GetWindow(w.desktop, id)
      case Some(_) => w.(memory := w.store.value)
      case None => ClearSession(w)
  }

  /** `runtime.onInstalled`: the session is cleared (opening the options page is not modelled). */
  function OnInstalled(w: World): (r: World)
    ensures r.memory == NoSession && r.store.None? && r.desktop == w.desktop
    ensures InitStateFromStorage(r) == r
  {
    ClearSession(w)
  }

  /** The URL the popup shows: `aiSiteUrl || defaultAiSiteUrl || FallbackUrl`. */
  function TargetUrl(c: Config): (url: string)
    ensures url != ""
    ensures Truthy(c.aiSiteUrl) ==> url == c.aiSiteUrl.value
    ensures !Truthy(c.aiSiteUrl) && Truthy(c.defaultAiSiteUrl) ==> url == c.defaultAiSiteUrl.value
    ensures !Truthy(c.aiSiteUrl) && !Truthy(c.defaultAiSiteUrl) ==> url == FallbackUrl
  {
    if Truthy(c.aiSiteUrl) then c.aiSiteUrl.value
    else if Truthy(c.defaultAiSiteUrl) then c.defaultAiSiteUrl.value
    else FallbackUrl
  }

  /** The options page's save button: a non-empty input is stored, an empty one removes the key. */
  function SaveAiSiteUrl(c: Config, input: string): (r: Config)
    ensures input != "" ==> TargetUrl(r) == input
    ensures input == "" ==> TargetUrl(r) == TargetUrl(Config(None, c.defaultAiSiteUrl))
    ensures r.defaultAiSiteUrl == c.defaultAiSiteUrl
  {
    if input != "" then c.(aiSiteUrl := Some(input)) else c.(aiSiteUrl := None)
  }

  /** A window the cleanup pass removes: a popup that is not the tracked one. */
  predicate Sweepable(win: Win, id: WindowId, tracked: Option<WindowId>) {
    win.kind == Popup && Some(id) != tracked
  }

  /** One iteration of the cleanup loop: look the tab's window up and remove it if it is an untracked popup. */
  function SweepOne(d: Desktop, id: WindowId, tracked: Option<WindowId>): (r: Desktop)
    ensures r.nextId == d.nextId
    ensures id in d.windows && Sweepable(d.windows[id], id, tracked) ==> r.windows == d.windows - {id}
    ensures !(id in d.windows && Sweepable(d.windows[id], id, tracked)) ==> r == d
    ensures WellFormed(d) ==> WellFormed(r)
  {
    match GetWindow(d, id)
    case None => d
    case Some(win) =>
      if Sweepable(win, id, tracked) then RemoveWindow(d, id).GetOr(d) else d
  }

  /**
    The cleanup loop over the tabs found on the target origin; failing
    lookups and removals are ignored.
   */
  function CleanupOrphans(d: Desktop, query: seq<Tab>, tracked: Option<WindowId>): (r: Desktop)
    ensures r.nextId == d.nextId
    ensures r.windows.Keys <= d.windows.Keys
    ensures forall id | id in r.windows :: r.windows[id] == d.windows[id]
    ensures WellFormed(d) ==> WellFormed(r)
    decreases |query|
  {
    if query == [] then d
    else CleanupOrphans(SweepOne(d, query[0].windowId, tracked), query[1..], tracked)
  }

  /**
    Reconciliation followed by the orphan cleanup for the origin of the target
    URL. `None` when the target URL has no origin: `new URL` throws and the
    click handler rejects right after reconciliation.
   */
  function Prepare(w: World, originOf: string -> Option<string>): (r: Option<World>)
    ensures r.None? <==> originOf(TargetUrl(w.config)).None?
    ensures r.Some? ==> && r.value.config == w.config
                        && r.value.memory == InitStateFromStorage(w).memory
                        && r.value.store == InitStateFromStorage(w).store
                        && r.value.desktop.nextId == w.desktop.nextId
                        && r.value.desktop.windows.Keys <= w.desktop.windows.Keys
                        && (forall id | id in r.value.desktop.windows ::
                              r.value.desktop.windows[id] == w.desktop.windows[id])
                        && (WellFormed(w.desktop) ==> WellFormed(r.value.desktop))
  {
    var w1 := InitStateFromStorage(w);
    match originOf(TargetUrl(w1.config))
    case None => None
    case Some(origin) =>
      var query := QueryTabs(w1.desktop.tabs, originOf, origin);
      Some(w1.(desktop := CleanupOrphans(w1.desktop, query, w1.memory.popupWindowId)))
  }

  /** The bounds the show branch and `windows.create` give the popup. */
  function PopupBounds(l: Layout): Bounds {
    Bounds(l.popup.left, l.popup.top, l.popup.width, l.popup.height, Normal)
  }

  /** The bounds the show and create branches give the main window. */
  function MainBounds(l: Layout): Bounds {
    Bounds(l.main.left, l.main.top, l.main.width, l.main.height, Normal)
  }

  /** The toggle shows the popup when it is minimized or maximized, and hides it otherwise. */
  predicate ShowsOnToggle(win: Win) {
    win.bounds.state == Minimized || win.bounds.state == Maximized
  }

  /**
    Updates the tracked main window, if one is recorded; a failure lands in
    the toggle's `catch`, which clears the session.
   */
  function UpdateMain(w: World, p: Patch): (r: World)
    ensures r.config == w.config && r.desktop.nextId == w.desktop.nextId
    ensures r.desktop.windows.Keys == w.desktop.windows.Keys
    ensures WellFormed(w.desktop) ==> WellFormed(r.desktop)
    ensures w.memory.originalMainWindowId.None? ==> r == w
    ensures w.memory.originalMainWindowId.Some? ==>
              var m := w.memory.originalMainWindowId.value;
              && (m !in w.desktop.windows ==> r.memory == NoSession && r.store.None? && r.desktop == w.desktop)
              && (m in w.desktop.windows ==>
                    && r.memory == w.memory && r.store == w.store
                    && r.desktop.windows[m].bounds == ApplyPatch(w.desktop.windows[m].bounds, p))
  {
    match w.memory.originalMainWindowId
    case None => w
    case Some(m) =>
      match UpdateWindow(w.desktop, m, p)
      case None => ClearSession(w)
      case Some(d) => w.(desktop := d)
  }

  /** Show: popup to its rectangle, normal and focused; main window to its rectangle, normal. */
  function Show(w: World, popup: WindowId, l: Layout): (r: World)
    ensures r.config == w.config && r.desktop.nextId == w.desktop.nextId
    ensures r.desktop.windows.Keys == w.desktop.windows.Keys
    ensures WellFormed(w.desktop) ==> WellFormed(r.desktop)
    ensures popup in w.desktop.windows && w.memory.originalMainWindowId != Some(popup) ==>
              r.desktop.windows[popup].bounds == PopupBounds(l)
  {
    match UpdateWindow(w.desktop, popup, BoundsPatch(PopupBounds(l), true))
    case None => ClearSession(w)
    case Some(d) => UpdateMain(w.(desktop := d), BoundsPatch(MainBounds(l), false))
  }

  /** Hide: popup minimized, main window maximized. */
  function Hide(w: World, popup: WindowId): (r: World)
    ensures r.config == w.config && r.desktop.nextId == w.desktop.nextId
    ensures r.desktop.windows.Keys == w.desktop.windows.Keys
    ensures WellFormed(w.desktop) ==> WellFormed(r.desktop)
    ensures popup in w.desktop.windows && w.memory.originalMainWindowId != Some(popup) ==>
              r.desktop.windows[popup].bounds.state == Minimized
  {
    match UpdateWindow(w.desktop, popup, StatePatch(Minimized))
    case None => ClearSession(w)
    case Some(d) => UpdateMain(w.(desktop := d), StatePatch(Maximized))
  }

  /** The toggle branch for a tracked popup; a popup that no longer resolves clears the session. */
  function Toggle(w: World, popup: WindowId, l: Layout): (r: World)
    ensures r.config == w.config && r.desktop.nextId == w.desktop.nextId
    ensures r.desktop.windows.Keys == w.desktop.windows.Keys
    ensures WellFormed(w.desktop) ==> WellFormed(r.desktop)
    ensures popup !in w.desktop.windows ==> r.memory == NoSession && r.store.None?
  {
    match GetWindow(w.desktop, popup)
    case None => ClearSession(w)
    case Some(win) => if ShowsOnToggle(win) then Show(w, popup, l) else Hide(w, popup)
  }

  /**
    The create branch: record the clicked tab's window and its bounds, move it
    to the main rectangle, open the popup, then write the session to storage.
    A clicked window that no longer resolves rejects the handler before
    anything is changed.
   */
  function CreateSession(w: World, clicked: WindowId, url: string, l: Layout): (r: World)
    ensures r.config == w.config
    ensures WellFormed(w.desktop) ==> WellFormed(r.desktop)
    ensures clicked !in w.desktop.windows ==> r == w
    ensures clicked in w.desktop.windows ==>
              && r.desktop.windows.Keys == w.desktop.windows.Keys + {w.desktop.nextId}
              && r.desktop.nextId == w.desktop.nextId + 1
              && r.memory.popupWindowId == Some(w.desktop.nextId)
              && r.memory.originalMainWindowId == Some(clicked)
              && r.memory.originalMainWindowBounds == Some(w.desktop.windows[clicked].bounds)
              && r.store == Some(r.memory)
  {
    match GetWindow(w.desktop, clicked)
    case None => w
    case Some(cur) =>
      var mem := w.memory.(originalMainWindowId := Some(clicked), originalMainWindowBounds := Some(cur.bounds));
      match UpdateWindow(w.desktop, clicked, BoundsPatch(MainBounds(l), false))
      case None => w.(memory := mem)
      case Some(d) =>
        var session := mem.(popupWindowId := Some(d.nextId));
        w.(desktop := CreateWindow(d, Popup, PopupBounds(l), url), memory := session, store := Some(session))
  }

  /**
    The click after the cleanup: choose the display, then toggle the tracked
    popup or create a session. With no display at all the handler rejects
    (reading `workArea` of `undefined`).
   */
  function Activate(w: World, clicked: WindowId, displays: seq<Display>): (r: World)
    ensures r.config == w.config && r.desktop.nextId >= w.desktop.nextId
    ensures WellFormed(w.desktop) ==> WellFormed(r.desktop)
    ensures |displays| == 0 ==> r == w
  {
    match PrimaryDisplay(displays)
    case None => w
    case Some(display) =>
      var l := SplitLayout(display.workArea);
      match w.memory.popupWindowId
      case Some(popup) => Toggle(w, popup, l)
      case None => CreateSession(w, clicked, TargetUrl(w.config), l)
  }

  /**
    `action.onClicked` for a tab of window `clicked`: reconcile, clean up
    orphans, then toggle or create. A target URL without an origin rejects
    the handler after reconciliation.
   */
  function OnClicked(w: World, clicked: WindowId, displays: seq<Display>,
                     originOf: string -> Option<string>): (r: World)
    ensures r.config == w.config && r.desktop.nextId >= w.desktop.nextId
    ensures WellFormed(w.desktop) ==> WellFormed(r.desktop)
    ensures WellFormed(w.desktop) ==> r.desktop.windows.Keys <= w.desktop.windows.Keys + {w.desktop.nextId}
    ensures originOf(TargetUrl(w.config)).None? ==> r == InitStateFromStorage(w)
  {
    match Prepare(w, originOf)
    case None => InitStateFromStorage(w)
    case Some(w2) => Activate(w2, clicked, displays)
  }

  /**
    `windows.onRemoved` for window `removed`, which is already gone from the
    desktop. Closing the tracked popup restores the main window to the recorded
    bounds (a failure is ignored) and clears the session. Only the in-memory
    record is consulted.
   */
  function OnRemoved(w: World, removed: WindowId): (r: World)
    ensures r.config == w.config && r.desktop.nextId == w.desktop.nextId
    ensures r.desktop.windows.Keys == w.desktop.windows.Keys && r.desktop.tabs == w.desktop.tabs
    ensures WellFormed(w.desktop) ==> WellFormed(r.desktop)
    ensures w.memory.popupWindowId == Some(removed) ==> r.memory == NoSession && r.store.None?
  {
    if w.memory.popupWindowId != Some(removed) then w
    else
      var d := match (w.memory.originalMainWindowId, w.memory.originalMainWindowBounds)
        case (Some(m), Some(b)) => UpdateWindow(w.desktop, m, BoundsPatch(b, false)).GetOr(w.desktop)
        case _ => w.desktop;
      ClearSession(w.(desktop := d))
  }

  /** The user closes window `id`; the browser then fires `windows.onRemoved`. */
  function ExternalClose(w: World, id: WindowId): (r: World)
    ensures r.config == w.config && r.desktop.nextId == w.desktop.nextId
    ensures id !in r.desktop.windows
    ensures r.desktop.windows.Keys == w.desktop.windows.Keys - {id}
    ensures WellFormed(w.desktop) ==> WellFormed(r.desktop)
  {
    match RemoveWindow(w.desktop, id)
    case None => w
    case Some(d) => OnRemoved(w.(desktop := d), id)
  }

  // ---------------------------------------------------------------------------
  // A fresh instance of the script

  /**
    The script is loaded again within one browser session (an idle service
    worker is stopped and later woken by an event): the in-memory record
    starts as the all-null record; windows, their ids and storage persist.
   */
  function Restart(w: World): (r: World)
    ensures r.memory == NoSession
    ensures r.desktop == w.desktop && r.store == w.store && r.config == w.config
  {
    w.(memory := NoSession)
  }

  /**
    `runtime.onStartup`: a fresh instance reconciles with storage. Only the
    resolution of the stored popup id is checked, not which window it names.
   */
  function OnStartup(w: World): (r: World)
    ensures r.desktop == w.desktop && r.config == w.config
    ensures StoredPopup(w).Some? && StoredPopup(w).value in w.desktop.windows ==>
              r.memory == w.store.value && r.store == w.store
    ensures StoredPopup(w).None? ==> r.memory == NoSession && r.store == w.store
    ensures StoredPopup(w).Some? && StoredPopup(w).value !in w.desktop.windows ==>
              r.memory == NoSession && r.store.None?
  {
    InitStateFromStorage(Restart(w))
  }

  /**
    The teardown with storage as the source of truth: when the cache holds no
    popup id, as in a fresh instance, and the stored record names the removed
    window, that record is used in place of the cache. Otherwise it is
    `OnRemoved` unchanged.
   */
  function OnRemovedFromStore(w: World, removed: WindowId): (r: World)
    ensures w.memory.popupWindowId.Some? ==> r == OnRemoved(w, removed)
    ensures w.memory.popupWindowId.None? && StoredPopup(w) != Some(removed) ==> r == w
    ensures w.memory.popupWindowId.None? && StoredPopup(w) == Some(removed) ==>
              && r.memory == NoSession && r.store.None?
              && r.desktop.windows.Keys == w.desktop.windows.Keys
  {
    if w.memory.popupWindowId.None? && StoredPopup(w) == Some(removed)
    then OnRemoved(w.(memory := w.store.value), removed)
    else OnRemoved(w, removed)
  }

  /** `ExternalClose` with the storage-backed teardown. */
  function ExternalCloseFromStore(w: World, id: WindowId): (r: World)
    ensures w.memory.popupWindowId.Some? ==> r == ExternalClose(w, id)
    ensures id !in r.desktop.windows
  {
    match RemoveWindow(w.desktop, id)
    case None => w
    case Some(d) => OnRemovedFromStore(w.(desktop := d), id)
  }
}

=== FILE: geometry.dfy ===
/** Choice of the display and the split-screen rectangles computed from its work area. */
module Geometry {
  import opened Wrappers

  datatype Rect = Rect(left: int, top: int, width: int, height: int)

  /** One entry of `system.display.getInfo()`. */
  datatype Display = Display(isPrimary: bool, workArea: Rect)

  /** Fixed width of the companion popup window. */
  const PopupWidth: int := 400

  /** The companion popup's rectangle and the main window's rectangle. */
  datatype Layout = Layout(popup: Rect, main: Rect)

  /** Index of the first display flagged primary (`Array.prototype.find`). */
  function FirstPrimary(ds: seq<Display>): (r: Option<nat>)
    ensures r.Some? ==> r.value < |ds| && ds[r.value].isPrimary && forall j | 0 <= j < r.value :: !ds[j].isPrimary
    ensures r.None? ==> forall j | 0 <= j < |ds| :: !ds[j].isPrimary
  {
    if ds == [] then None
    else if ds[0].isPrimary then Some(0)
    else match FirstPrimary(ds[1..])
      case None => None
      case Some(k) => Some(k + 1)
  }

  /** `displayInfo.find(d => d.isPrimary) || displayInfo[0]`; `None` when there is no display at all. */
  function PrimaryDisplay(ds: seq<Display>): (r: Option<Display>)
    ensures r.None? <==> |ds| == 0
    ensures (exists i | 0 <= i < |ds| :: ds[i].isPrimary) ==>
              r.Some? && r.value.isPrimary &&
              exists i | 0 <= i < |ds| :: ds[i] == r.value && forall j | 0 <= j < i :: !ds[j].isPrimary
    ensures |ds| > 0 && (forall i | 0 <= i < |ds| :: !ds[i].isPrimary) ==> r == Some(ds[0])
  {
    match FirstPrimary(ds)
    case Some(i) => Some(ds[i])
    case None => if |ds| == 0 then None else Some(ds[0])
  }

  /** The popup takes the right-most `PopupWidth` columns of the work area and the main window the rest. */
  function SplitLayout(work: Rect): (l: Layout)
    ensures l.popup.width == PopupWidth
    ensures l.main.width + l.popup.width == work.width
    ensures l.popup.left == l.main.left + l.main.width
    ensures l.main.left == 0 && l.main.top == 0 && l.popup.top == 0
    ensures l.main.height == work.height && l.popup.height == work.height
  {
    var mainWidth := work.width - PopupWidth;
    Layout(Rect(work.width - PopupWidth, 0, PopupWidth, work.height), Rect(0, 0, mainWidth, work.height))
  }

  /** On a 1920x1080 work area the main window is 1520 wide and the popup starts at column 1520. */
  lemma FullHdLayout(left: int, top: int)
    ensures SplitLayout(Rect(left, top, 1920, 1080)) == Layout(Rect(1520, 0, 400, 1080), Rect(0, 0, 1520, 1080))
  {
  }
}

=== FILE: properties.dfy ===
/**
  Properties of the session state machine: what reconciliation, the orphan
  cleanup, the toggle, session creation and the teardown on window removal
  guarantee, and the round trip from creation to an external close.
 */
module SessionProperties {
  import opened Wrappers
  import opened Windows
  import opened Geometry
  import opened Background

  // ---------------------------------------------------------------------------
  // Reconciliation

  /** Reconciling twice is reconciling once: after the first pass the store never names a missing popup. */
  lemma ReconcileIdempotent(w: World)
    ensures InitStateFromStorage(InitStateFromStorage(w)) == InitStateFromStorage(w)
  {
  }

  /** After `clearSession` neither a reconciliation nor a removal event changes anything. */
  lemma ClearedSessionIsQuiet(w: World, id: WindowId)
    ensures InitStateFromStorage(ClearSession(w)) == ClearSession(w)
    ensures OnRemoved(ClearSession(w), id) == ClearSession(w)
  {
  }

  // ---------------------------------------------------------------------------
  // Orphan cleanup

  /** The ids of the windows holding the tabs of `q`. */
  function WindowIds(q: seq<Tab>): set<WindowId> {
    if q == [] then {} else {q[0].windowId} + WindowIds(q[1..])
  }

  lemma {:induction false} WindowIdsMembers(q: seq<Tab>, id: WindowId)
    ensures id in WindowIds(q) <==> exists t :: t in q && t.windowId == id
  {
    if q != [] {
      WindowIdsMembers(q[1..], id);
      assert q == [q[0]] + q[1..];
      if id in WindowIds(q[1..]) {
        var t :| t in q[1..] && t.windowId == id;
        assert t in q;
      }
    }
  }

  /** The windows among `ws` the cleanup loop over `q` removes. */
  function Orphans(ws: map<WindowId, Win>, q: seq<Tab>, tracked: Option<WindowId>): set<WindowId> {
    set id | id in ws && Sweepable(ws[id], id, tracked) && id in WindowIds(q)
  }

  /** The cleanup loop removes exactly the untracked popups named by the query, whatever the order of the tabs. */
  lemma {:induction false} CleanupRemovesSweptWindows(d: Desktop, q: seq<Tab>, tracked: Option<WindowId>)
    ensures CleanupOrphans(d, q, tracked).windows == d.windows - Orphans(d.windows, q, tracked)
    decreases |q|
  {
    if q == [] {
      assert Orphans(d.windows, q, tracked) == {};
    } else {
      var id := q[0].windowId;
      var next := SweepOne(d, id, tracked);
      CleanupRemovesSweptWindows(next, q[1..], tracked);
      var here := if id in d.windows && Sweepable(d.windows[id], id, tracked) then {id} else {};
      assert next.windows == d.windows - here;
      OrphansStep(d.windows, q, tracked, here);
      MapMinusMinus(d.windows, here, Orphans(next.windows, q[1..], tracked));
    }
  }

  /** The orphans of a non-empty query: those the first step removes and those the rest of the loop removes. */
  lemma OrphansStep(ws: map<WindowId, Win>, q: seq<Tab>, tracked: Option<WindowId>, here: set<WindowId>)
    requires q != []
    requires here == if q[0].windowId in ws && Sweepable(ws[q[0].windowId], q[0].windowId, tracked)
                     then {q[0].windowId} else {}
    ensures Orphans(ws, q, tracked) == here + Orphans(ws - here, q[1..], tracked)
  {
    assert WindowIds(q) == {q[0].windowId} + WindowIds(q[1..]);
  }

  /** Removing two key sets one after the other removes their union. */
  lemma MapMinusMinus(m: map<WindowId, Win>, a: set<WindowId>, b: set<WindowId>)
    ensures (m - a) - b == m - (a + b)
  {
  }

  /** Window `id` is an orphan: an untracked popup holding a tab on `origin`. */
  ghost predicate IsOrphan(d: Desktop, id: WindowId, originOf: string -> Option<string>, origin: string,
                           tracked: Option<WindowId>) {
    && id in d.windows
    && d.windows[id].kind == Popup
    && Some(id) != tracked
    && exists t :: t in d.tabs && t.windowId == id && originOf(t.url) == Some(origin)
  }

  /**
    The cleanup for the target origin removes exactly the orphans; every other
    window, in particular every non-popup window and the tracked popup,
    survives untouched.
   */
  lemma CleanupRemovesExactlyOrphans(d: Desktop, originOf: string -> Option<string>, origin: string,
                                     tracked: Option<WindowId>)
    ensures var r := CleanupOrphans(d, QueryTabs(d.tabs, originOf, origin), tracked);
            && (forall id :: id in r.windows <==> id in d.windows && !IsOrphan(d, id, originOf, origin, tracked))
            && (forall id | id in r.windows :: r.windows[id] == d.windows[id])
            && (forall id | id in d.windows && (d.windows[id].kind != Popup || Some(id) == tracked) :: id in r.windows)
  {
    var q := QueryTabs(d.tabs, originOf, origin);
    CleanupRemovesSweptWindows(d, q, tracked);
    forall id: WindowId
      ensures id in Orphans(d.windows, q, tracked) <==> IsOrphan(d, id, originOf, origin, tracked)
    {
      WindowIdsMembers(q, id);
    }
  }

  /** A window the cleanup may not remove keeps its entry. */
  lemma CleanupKeeps(d: Desktop, q: seq<Tab>, tracked: Option<WindowId>, id: WindowId)
    requires id in d.windows && !Sweepable(d.windows[id], id, tracked)
    ensures id in CleanupOrphans(d, q, tracked).windows
  {
    CleanupRemovesSweptWindows(d, q, tracked);
  }

  // ---------------------------------------------------------------------------
  // Toggle

  /** The main window recorded in memory, if any, is live and is not the popup. */
  predicate MainResolves(w: World, popup: WindowId) {
    w.memory.originalMainWindowId.Some? ==>
      w.memory.originalMainWindowId.value in w.desktop.windows && w.memory.originalMainWindowId.value != popup
  }

  /**
    Show: a minimized or maximized popup is put back at the popup rectangle,
    normal and focused, and the tracked main window at the main rectangle; the
    session and the store do not change and no window appears or disappears.
   */
  lemma ShowPlacesSplit(w: World, popup: WindowId, l: Layout)
    requires popup in w.desktop.windows && ShowsOnToggle(w.desktop.windows[popup])
    requires MainResolves(w, popup)
    ensures var r := Toggle(w, popup, l);
            && r.memory == w.memory && r.store == w.store
            && r.desktop.windows.Keys == w.desktop.windows.Keys
            && r.desktop.windows[popup] == w.desktop.windows[popup].(bounds := PopupBounds(l))
            && r.desktop.focused == Some(popup)
            && (w.memory.originalMainWindowId.Some? ==>
                  var m := w.memory.originalMainWindowId.value;
                  r.desktop.windows[m] == w.desktop.windows[m].(bounds := MainBounds(l)))
            && (forall id | id in w.desktop.windows && id != popup && Some(id) != w.memory.originalMainWindowId ::
                  r.desktop.windows[id] == w.desktop.windows[id])
  {
  }

  /**
    Hide: any other popup state minimizes the popup and maximizes the tracked
    main window, leaving their positions, the session and the store alone.
   */
  lemma HideMinimizes(w: World, popup: WindowId, l: Layout)
    requires popup in w.desktop.windows && !ShowsOnToggle(w.desktop.windows[popup])
    requires MainResolves(w, popup)
    ensures var r := Toggle(w, popup, l);
            && r.memory == w.memory && r.store == w.store
            && r.desktop.windows.Keys == w.desktop.windows.Keys
            && r.desktop.windows[popup].bounds == w.desktop.windows[popup].bounds.(state := Minimized)
            && (w.memory.originalMainWindowId.Some? ==>
                  var m := w.memory.originalMainWindowId.value;
                  r.desktop.windows[m].bounds == w.desktop.windows[m].bounds.(state := Maximized))
            && (forall id | id in w.desktop.windows && id != popup && Some(id) != w.memory.originalMainWindowId ::
                  r.desktop.windows[id] == w.desktop.windows[id])
  {
  }

  /** The two toggle branches are complementary: each leaves the popup in a state that selects the other. */
  lemma ToggleAlternates(w: World, popup: WindowId, l: Layout)
    requires popup in w.desktop.windows
    requires MainResolves(w, popup)
    ensures var r := Toggle(w, popup, l);
            popup in r.desktop.windows && (ShowsOnToggle(r.desktop.windows[popup]) <==> !ShowsOnToggle(w.desktop.windows[popup]))
  {
    if ShowsOnToggle(w.desktop.windows[popup]) {
      ShowPlacesSplit(w, popup, l);
    } else {
      HideMinimizes(w, popup, l);
    }
  }

  /** A tracked popup that no longer resolves: the session is cleared and no window is touched. */
  lemma StalePopupClears(w: World, popup: WindowId, l: Layout)
    requires popup !in w.desktop.windows
    ensures Toggle(w, popup, l) == ClearSession(w)
  {
  }

  /**
    A tracked main window that no longer resolves makes the main-window update
    fail inside the toggle's `try`: the session is cleared although the popup
    is still open, and the popup stays on screen untracked.
   */
  lemma MissingMainClears(w: World, popup: WindowId, l: Layout)
    requires popup in w.desktop.windows
    requires w.memory.originalMainWindowId.Some? && w.memory.originalMainWindowId.value !in w.desktop.windows
    ensures var r := Toggle(w, popup, l);
            r.memory == NoSession && r.store.None? && popup in r.desktop.windows
  {
  }

  // ---------------------------------------------------------------------------
  // Activation

  /** The layout the activation computes from the display list. */
  function ActiveLayout(ds: seq<Display>): Layout
    requires |ds| > 0
  {
    SplitLayout(PrimaryDisplay(ds).value.workArea)
  }

  /**
    An established session: memory and store agree on it, the popup and the
    main window are live and distinct, and only the popup is of type popup.
   */
  predicate LiveSession(w: World, popup: WindowId, main: WindowId, b: Bounds) {
    && w.memory == Session(Some(popup), Some(main), Some(b))
    && w.store == Some(w.memory)
    && popup != main
    && popup in w.desktop.windows && main in w.desktop.windows
    && w.desktop.windows[popup].kind == Popup
    && w.desktop.windows[main].kind != Popup
    && WellFormed(w.desktop)
  }

  /**
    With no session left after reconciliation, a click records the clicked
    window's bounds as they were, moves that window to the main rectangle,
    opens a fresh focused popup at the popup rectangle on the target URL and
    stores the complete session. The clicked window is not of type popup:
    popup windows show no toolbar, so the action is clicked from a normal
    window.
   */
  lemma CreateRecordsSession(w: World, clicked: WindowId, ds: seq<Display>, originOf: string -> Option<string>)
    requires WellFormed(w.desktop)
    requires clicked in w.desktop.windows && w.desktop.windows[clicked].kind != Popup
    requires |ds| > 0
    requires InitStateFromStorage(w).memory.popupWindowId.None?
    requires originOf(TargetUrl(w.config)).Some?
    ensures var r := OnClicked(w, clicked, ds, originOf);
            var p := w.desktop.nextId;
            var b := w.desktop.windows[clicked].bounds;
            && p !in w.desktop.windows
            && r.memory == Session(Some(p), Some(clicked), Some(b))
            && r.store == Some(r.memory)
            && r.desktop.windows[p] == Win(Popup, PopupBounds(ActiveLayout(ds)))
            && r.desktop.windows[clicked] == w.desktop.windows[clicked].(bounds := MainBounds(ActiveLayout(ds)))
            && r.desktop.focused == Some(p)
            && Tab(p, TargetUrl(w.config)) in r.desktop.tabs
            && LiveSession(r, p, clicked, b)
  {
    var w1 := InitStateFromStorage(w);
    var query := QueryTabs(w1.desktop.tabs, originOf, originOf(TargetUrl(w1.config)).value);
    CleanupKeeps(w1.desktop, query, w1.memory.popupWindowId, clicked);
  }

  /**
    A stored session whose popup has disappeared (after a restart, say) is
    discarded: the click acts exactly as it would on a cleared session, and so
    creates a fresh session under a new popup id.
   */
  lemma StaleStoredSessionRecreates(w: World, clicked: WindowId, ds: seq<Display>, originOf: string -> Option<string>)
    requires StoredPopup(w).Some? && StoredPopup(w).value !in w.desktop.windows
    ensures OnClicked(w, clicked, ds, originOf) == OnClicked(ClearSession(w), clicked, ds, originOf)
    ensures WellFormed(w.desktop) && clicked in w.desktop.windows && w.desktop.windows[clicked].kind != Popup &&
            |ds| > 0 && originOf(TargetUrl(w.config)).Some? ==>
              var r := OnClicked(w, clicked, ds, originOf);
              r.memory.popupWindowId == Some(w.desktop.nextId) && r.store == Some(r.memory)
  {
    if WellFormed(w.desktop) && clicked in w.desktop.windows && w.desktop.windows[clicked].kind != Popup &&
       |ds| > 0 && originOf(TargetUrl(w.config)).Some? {
      CreateRecordsSession(w, clicked, ds, originOf);
    }
  }

  /**
    A tracked popup that no longer resolves, with nothing in storage to
    reconcile, clears the session; the click creates and resizes nothing.
   */
  lemma StaleTrackedPopupClears(w: World, clicked: WindowId, ds: seq<Display>, originOf: string -> Option<string>)
    requires |ds| > 0
    requires w.memory.popupWindowId.Some? && w.memory.popupWindowId.value !in w.desktop.windows
    requires StoredPopup(w).None?
    requires originOf(TargetUrl(w.config)).Some?
    ensures var r := OnClicked(w, clicked, ds, originOf);
            && r.memory == NoSession && r.store.None?
            && r.desktop.nextId == w.desktop.nextId
            && r.desktop.windows.Keys <= w.desktop.windows.Keys
            && (forall id | id in r.desktop.windows :: r.desktop.windows[id] == w.desktop.windows[id])
  {
  }

  /**
    An activation that stops early writes nothing: with no display, or with the
    clicked window gone in the create branch, memory and store are those left
    by reconciliation, and windows have only been removed by the cleanup.
   */
  lemma AbortedActivationWritesNothing(w: World, clicked: WindowId, ds: seq<Display>, originOf: string -> Option<string>)
    requires |ds| == 0 || (InitStateFromStorage(w).memory.popupWindowId.None? && clicked !in w.desktop.windows)
    ensures var r := OnClicked(w, clicked, ds, originOf);
            && r.memory == InitStateFromStorage(w).memory
            && r.store == InitStateFromStorage(w).store
            && r.desktop.windows.Keys <= w.desktop.windows.Keys
            && (forall id | id in r.desktop.windows :: r.desktop.windows[id] == w.desktop.windows[id])
  {
  }

  /**
    A click during a live session keeps it live, flips the toggle, and puts the
    two windows either in the split layout (show) or minimized and maximized
    (hide).
   */
  lemma ClickKeepsLiveSession(w: World, clicked: WindowId, ds: seq<Display>, originOf: string -> Option<string>,
                              popup: WindowId, main: WindowId, b: Bounds)
    requires LiveSession(w, popup, main, b)
    requires |ds| > 0
    requires originOf(TargetUrl(w.config)).Some?
    ensures var r := OnClicked(w, clicked, ds, originOf);
            && LiveSession(r, popup, main, b)
            && (ShowsOnToggle(r.desktop.windows[popup]) <==> !ShowsOnToggle(w.desktop.windows[popup]))
            && (ShowsOnToggle(w.desktop.windows[popup]) ==>
                  r.desktop.windows[popup].bounds == PopupBounds(ActiveLayout(ds))
                  && r.desktop.windows[main].bounds == MainBounds(ActiveLayout(ds)))
            && (!ShowsOnToggle(w.desktop.windows[popup]) ==>
                  r.desktop.windows[popup].bounds.state == Minimized
                  && r.desktop.windows[main].bounds.state == Maximized)
  {
    var w1 := InitStateFromStorage(w);
    assert w1 == w;
    var query := QueryTabs(w.desktop.tabs, originOf, originOf(TargetUrl(w.config)).value);
    CleanupKeeps(w.desktop, query, w.memory.popupWindowId, popup);
    CleanupKeeps(w.desktop, query, w.memory.popupWindowId, main);
    var w2 := Prepare(w, originOf).value;
    assert LiveSession(w2, popup, main, b);
    ToggleAlternates(w2, popup, ActiveLayout(ds));
    if ShowsOnToggle(w2.desktop.windows[popup]) {
      ShowPlacesSplit(w2, popup, ActiveLayout(ds));
    } else {
      HideMinimizes(w2, popup, ActiveLayout(ds));
    }
  }

  // ---------------------------------------------------------------------------
  // Teardown

  /**
    Closing the tracked popup restores the main window to exactly the recorded
    bounds when it still exists (a failure is ignored), touches no other
    window, and clears the session.
   */
  lemma TeardownRestoresBounds(w: World, popup: WindowId)
    requires w.memory.popupWindowId == Some(popup)
    ensures var r := OnRemoved(w, popup);
            && r.memory == NoSession && r.store.None?
            && r.desktop.windows.Keys == w.desktop.windows.Keys
            && (forall id | id in w.desktop.windows && Some(id) != w.memory.originalMainWindowId ::
                  r.desktop.windows[id] == w.desktop.windows[id])
            && (w.memory.originalMainWindowId.Some? && w.memory.originalMainWindowBounds.Some? &&
                w.memory.originalMainWindowId.value in w.desktop.windows ==>
                  r.desktop.windows[w.memory.originalMainWindowId.value].bounds == w.memory.originalMainWindowBounds.value)
  {
  }

  /** Removing any window other than the tracked popup changes nothing. */
  lemma OtherRemovalIgnored(w: World, removed: WindowId)
    requires w.memory.popupWindowId != Some(removed)
    ensures OnRemoved(w, removed) == w
  {
  }

  // ---------------------------------------------------------------------------
  // Round trip

  /** One toolbar click: the window of the clicked tab and the display list reported at that moment. */
  datatype Click = Click(window: WindowId, displays: seq<Display>)

  /** The clicks of `cs`, one after the other. */
  function Clicks(w: World, cs: seq<Click>, originOf: string -> Option<string>): World
    decreases |cs|
  {
    if cs == [] then w else Clicks(OnClicked(w, cs[0].window, cs[0].displays, originOf), cs[1..], originOf)
  }

  /** Every click of `cs` reports at least one display. */
  predicate HasDisplays(cs: seq<Click>) {
    forall i | 0 <= i < |cs| :: |cs[i].displays| > 0
  }

  /** The clicks after the first report displays whenever all of them do. */
  lemma TailHasDisplays(cs: seq<Click>)
    requires cs != [] && HasDisplays(cs)
    ensures |cs[0].displays| > 0 && HasDisplays(cs[1..])
  {
    forall i | 0 <= i < |cs[1..]| ensures |cs[1..][i].displays| > 0 {
      assert cs[1..][i] == cs[i + 1];
    }
  }

  /**
    Any sequence of clicks, each from any window and with any non-empty
    display list, keeps a live session live and leaves the settings alone;
    the toggle then depends only on the parity of the number of clicks.
   */
  lemma {:induction false} ClicksKeepLiveSession(w: World, cs: seq<Click>, originOf: string -> Option<string>,
                                                 popup: WindowId, main: WindowId, b: Bounds)
    requires LiveSession(w, popup, main, b)
    requires originOf(TargetUrl(w.config)).Some?
    requires HasDisplays(cs)
    decreases |cs|
    ensures var r := Clicks(w, cs, originOf);
            && LiveSession(r, popup, main, b) && r.config == w.config
            && (ShowsOnToggle(r.desktop.windows[popup]) <==> (ShowsOnToggle(w.desktop.windows[popup]) == (|cs| % 2 == 0)))
  {
    if cs != [] {
      TailHasDisplays(cs);
      var w1 := OnClicked(w, cs[0].window, cs[0].displays, originOf);
      ClickKeepsLiveSession(w, cs[0].window, cs[0].displays, originOf, popup, main, b);
      ClicksKeepLiveSession(w1, cs[1..], originOf, popup, main, b);
      var r := Clicks(w1, cs[1..], originOf);
      assert Clicks(w, cs, originOf) == r;
      ParityStep(|cs|, ShowsOnToggle(w.desktop.windows[popup]), ShowsOnToggle(w1.desktop.windows[popup]),
                 ShowsOnToggle(r.desktop.windows[popup]));
    }
  }

  /** One more step flips the parity. */
  lemma ParityStep(n: nat, first: bool, next: bool, last: bool)
    requires n > 0
    requires next == !first
    requires last == (next == ((n - 1) % 2 == 0))
    ensures last == (first == (n % 2 == 0))
  {
  }

  /**
    Create a session, click the action any number of times more (from any
    window, with any display list), then close the popup from outside: the
    main window is back at exactly its pre-session bounds and no session is
    left in memory or storage.
   */
  lemma SessionRoundTrip(w: World, clicked: WindowId, ds: seq<Display>, originOf: string -> Option<string>,
                         cs: seq<Click>)
    requires WellFormed(w.desktop)
    requires clicked in w.desktop.windows && w.desktop.windows[clicked].kind != Popup
    requires |ds| > 0
    requires InitStateFromStorage(w).memory.popupWindowId.None?
    requires originOf(TargetUrl(w.config)).Some?
    requires HasDisplays(cs)
    ensures var popup := w.desktop.nextId;
            var r := ExternalClose(Clicks(OnClicked(w, clicked, ds, originOf), cs, originOf), popup);
            && clicked in r.desktop.windows
            && r.desktop.windows[clicked].bounds == w.desktop.windows[clicked].bounds
            && r.memory == NoSession && r.store.None?
  {
    var popup := w.desktop.nextId;
    var b := w.desktop.windows[clicked].bounds;
    var w1 := OnClicked(w, clicked, ds, originOf);
    CreateRecordsSession(w, clicked, ds, originOf);
    ClicksKeepLiveSession(w1, cs, originOf, popup, clicked, b);
    CloseLiveSessionRestores(Clicks(w1, cs, originOf), popup, clicked, b);
  }

  /** Closing the popup of a live session restores the main window to the recorded bounds and clears the session. */
  lemma CloseLiveSessionRestores(w: World, popup: WindowId, main: WindowId, b: Bounds)
    requires LiveSession(w, popup, main, b)
    ensures var r := ExternalClose(w, popup);
            && main in r.desktop.windows && r.desktop.windows[main].bounds == b
            && r.memory == NoSession && r.store.None?
  {
    var d := RemoveWindow(w.desktop, popup).value;
    TeardownRestoresBounds(w.(desktop := d), popup);
  }

  /**
    The toggle cycle: create (visible), click (hidden), click (visible), close
    the popup (main window restored, no session).
   */
  lemma ToggleCycle(w: World, clicked: WindowId, ds: seq<Display>, originOf: string -> Option<string>)
    requires WellFormed(w.desktop)
    requires clicked in w.desktop.windows && w.desktop.windows[clicked].kind != Popup
    requires |ds| > 0
    requires InitStateFromStorage(w).memory.popupWindowId.None?
    requires originOf(TargetUrl(w.config)).Some?
    ensures var popup := w.desktop.nextId;
            var w1 := OnClicked(w, clicked, ds, originOf);
            var w2 := OnClicked(w1, clicked, ds, originOf);
            var w3 := OnClicked(w2, clicked, ds, originOf);
            var w4 := ExternalClose(w3, popup);
            && popup in w1.desktop.windows && popup in w2.desktop.windows && popup in w3.desktop.windows
            && clicked in w3.desktop.windows && clicked in w4.desktop.windows
            && w1.desktop.windows[popup].bounds.state == Normal
            && w2.desktop.windows[popup].bounds.state == Minimized
            && w3.desktop.windows[popup].bounds == PopupBounds(ActiveLayout(ds))
            && w3.desktop.windows[clicked].bounds == MainBounds(ActiveLayout(ds))
            && w4.desktop.windows[clicked].bounds == w.desktop.windows[clicked].bounds
            && w4.memory == NoSession && w4.store.None?
  {
    var popup := w.desktop.nextId;
    var b := w.desktop.windows[clicked].bounds;
    var w1 := OnClicked(w, clicked, ds, originOf);
    CreateRecordsSession(w, clicked, ds, originOf);
    var w2 := OnClicked(w1, clicked, ds, originOf);
    ClickKeepsLiveSession(w1, clicked, ds, originOf, popup, clicked, b);
    var w3 := OnClicked(w2, clicked, ds, originOf);
    ClickKeepsLiveSession(w2, clicked, ds, originOf, popup, clicked, b);
    CloseLiveSessionRestores(w3, popup, clicked, b);
  }

  // ---------------------------------------------------------------------------
  // A fresh instance of the script

  /** A fresh instance that reconciles at startup picks a live session back up unchanged. */
  lemma StartupResumesLiveSession(w: World, popup: WindowId, main: WindowId, b: Bounds)
    requires LiveSession(w, popup, main, b)
    ensures OnStartup(w) == w
  {
  }

  /**
    The teardown as written reads only the in-memory record: when the popup
    of a live session is closed after the script was loaded again, the main
    window stays where it is and the record stays in storage.
   */
  lemma RestartSkipsRestore(w: World, popup: WindowId, main: WindowId, b: Bounds)
    requires LiveSession(w, popup, main, b)
    ensures var r := ExternalClose(Restart(w), popup);
            && popup !in r.desktop.windows
            && main in r.desktop.windows && r.desktop.windows[main] == w.desktop.windows[main]
            && r.store == w.store && StoredPopup(r) == Some(popup)
  {
  }

  /**
    Concretely: create a session, let the script be loaded again, close the
    popup. The main window keeps the main rectangle of the split layout
    instead of returning to the bounds recorded at creation.
   */
  lemma RestartedCloseLeavesSplit(w: World, clicked: WindowId, ds: seq<Display>, originOf: string -> Option<string>)
    requires WellFormed(w.desktop)
    requires clicked in w.desktop.windows && w.desktop.windows[clicked].kind != Popup
    requires |ds| > 0
    requires InitStateFromStorage(w).memory.popupWindowId.None?
    requires originOf(TargetUrl(w.config)).Some?
    ensures var r := ExternalClose(Restart(OnClicked(w, clicked, ds, originOf)), w.desktop.nextId);
            && clicked in r.desktop.windows
            && r.desktop.windows[clicked].bounds == MainBounds(ActiveLayout(ds))
            && r.store == Some(Session(Some(w.desktop.nextId), Some(clicked), Some(w.desktop.windows[clicked].bounds)))
  {
    var w1 := OnClicked(w, clicked, ds, originOf);
    CreateRecordsSession(w, clicked, ds, originOf);
    RestartSkipsRestore(w1, w.desktop.nextId, clicked, w.desktop.windows[clicked].bounds);
  }

  /**
    The storage-backed teardown restores the main window after a restart
    exactly as the cached one does without it.
   */
  lemma RestartedCloseRestores(w: World, popup: WindowId, main: WindowId, b: Bounds)
    requires LiveSession(w, popup, main, b)
    ensures var r := ExternalCloseFromStore(Restart(w), popup);
            && main in r.desktop.windows && r.desktop.windows[main].bounds == b
            && r.memory == NoSession && r.store.None?
  {
    var d := RemoveWindow(w.desktop, popup).value;
    assert Restart(w).(desktop := d).(memory := w.store.value) == w.(desktop := d);
    TeardownRestoresBounds(w.(desktop := d), popup);
  }

  /**
    With the storage-backed teardown the round trip survives a restart:
    create, click any number of times, let the script be loaded again, close
    the popup; the main window is back at its pre-session bounds.
   */
  lemma SessionRoundTripAcrossRestart(w: World, clicked: WindowId, ds: seq<Display>,
                                      originOf: string -> Option<string>, cs: seq<Click>)
    requires WellFormed(w.desktop)
    requires clicked in w.desktop.windows && w.desktop.windows[clicked].kind != Popup
    requires |ds| > 0
    requires InitStateFromStorage(w).memory.popupWindowId.None?
    requires originOf(TargetUrl(w.config)).Some?
    requires HasDisplays(cs)
    ensures var popup := w.desktop.nextId;
            var r := ExternalCloseFromStore(Restart(Clicks(OnClicked(w, clicked, ds, originOf), cs, originOf)), popup);
            && clicked in r.desktop.windows
            && r.desktop.windows[clicked].bounds == w.desktop.windows[clicked].bounds
            && r.memory == NoSession && r.store.None?
  {
    var popup := w.desktop.nextId;
    var b := w.desktop.windows[clicked].bounds;
    var w1 := OnClicked(w, clicked, ds, originOf);
    CreateRecordsSession(w, clicked, ds, originOf);
    ClicksKeepLiveSession(w1, cs, originOf, popup, clicked, b);
    RestartedCloseRestores(Clicks(w1, cs, originOf), popup, clicked, b);
  }

  // ---------------------------------------------------------------------------
  // The cache invariant

  /** A session record with all three fields present. */
  predicate Full(s: Session) {
    s.popupWindowId.Some? && s.originalMainWindowId.Some? && s.originalMainWindowBounds.Some?
  }

  /**
    Storage is the source of truth and memory a cache of it: a stored record
    is always whole, and memory is either all-null or a copy of storage.
   */
  predicate Coherent(w: World) {
    && (w.store.Some? ==> Full(w.store.value))
    && (w.memory == NoSession || w.store == Some(w.memory))
  }

  /**
    A click keeps the cache invariant and the integrity of the window table,
    whichever way it ends: aborted, through the toggle's `catch`, a toggle or
    a new session.
   */
  lemma ClickKeepsInvariants(w: World, clicked: WindowId, ds: seq<Display>, originOf: string -> Option<string>)
    requires WellFormed(w.desktop) && Coherent(w)
    ensures var r := OnClicked(w, clicked, ds, originOf); WellFormed(r.desktop) && Coherent(r)
  {
  }

  /**
    Window closes, installation, a reload of the script and startup
    reconciliation keep the cache invariant, and a close keeps the window
    table intact; so does the storage-backed teardown.
   */
  lemma HandlersKeepInvariants(w: World, id: WindowId)
    requires WellFormed(w.desktop) && Coherent(w)
    ensures var r := ExternalClose(w, id); WellFormed(r.desktop) && Coherent(r)
    ensures Coherent(OnInstalled(w))
    ensures Coherent(Restart(w))
    ensures Coherent(OnStartup(w))
    ensures Coherent(ExternalCloseFromStore(w, id))
  {
  }
}

=== FILE: windows.dfy ===
/**
  The host window manager as the session logic sees it: a table of windows,
  the tabs they hold, the focused window, and the calls `windows.get`,
  `windows.update`, `windows.remove`, `windows.create` and `tabs.query`.
  Calls that address a window by id answer `None` when the id does not resolve
  (the browser rejects the promise with "No window with id").
 */
module Windows {
  import opened Wrappers

  /** Browser window ids are positive, so an id is never falsy; `null` is `None`. */
  type WindowId = x: int | x > 0 witness 1

  datatype WindowState = Normal | Minimized | Maximized | Fullscreen | LockedFullscreen

  datatype WindowType = NormalWindow | Popup | Panel | App | DevTools

  /** Position, size and state of a window, as reported by `windows.get`. */
  datatype Bounds = Bounds(left: int, top: int, width: int, height: int, state: WindowState)

  datatype Win = Win(kind: WindowType, bounds: Bounds)

  /** A tab: the window holding it and the URL it shows. */
  datatype Tab = Tab(windowId: WindowId, url: string)

  /** The live window-manager state; `nextId` is the id the next created window receives. */
  datatype Desktop = Desktop(windows: map<WindowId, Win>, tabs: seq<Tab>, focused: Option<WindowId>, nextId: WindowId)

  /** Every tab and the focus refer to a live window, and every live id is below `nextId`. */
  predicate WellFormed(d: Desktop) {
    && (forall id | id in d.windows :: id < d.nextId)
    && (forall t | t in d.tabs :: t.windowId in d.windows)
    && (d.focused.Some? ==> d.focused.value in d.windows)
  }

  /** The argument of `windows.update`: absent fields keep their value; `focused: true` raises the window. */
  datatype Patch = Patch(left: Option<int>, top: Option<int>, width: Option<int>, height: Option<int>,
                         state: Option<WindowState>, focused: bool)

  function ApplyPatch(b: Bounds, p: Patch): Bounds {
    Bounds(p.left.GetOr(b.left), p.top.GetOr(b.top), p.width.GetOr(b.width), p.height.GetOr(b.height),
           p.state.GetOr(b.state))
  }

  /** A patch that only changes the window state. */
  function StatePatch(s: WindowState): (p: Patch)
    ensures forall b :: ApplyPatch(b, p) == b.(state := s)
  {
    Patch(None, None, None, None, Some(s), false)
  }

  /** A patch naming all five fields of `target`: applied to any window it yields exactly `target`. */
  function BoundsPatch(target: Bounds, focus: bool): (p: Patch)
    ensures forall b :: ApplyPatch(b, p) == target
    ensures p.focused == focus
  {
    Patch(Some(target.left), Some(target.top), Some(target.width), Some(target.height), Some(target.state), focus)
  }

  /** The tabs of `tabs` that satisfy `keep`, in their original order. */
  function Filter(tabs: seq<Tab>, keep: Tab -> bool): (r: seq<Tab>)
    ensures |r| <= |tabs|
    ensures forall t :: t in r <==> t in tabs && keep(t)
  {
    if tabs == [] then []
    else
      assert tabs == [tabs[0]] + tabs[1..];
      (if keep(tabs[0]) then [tabs[0]] else []) + Filter(tabs[1..], keep)
  }

  // `tabs.query` with the URL pattern of `origin`: the tabs whose URL lies on
  // `origin`. `originOf` answers `None` for a URL with no origin, which no
  // pattern matches.
  function QueryTabs(tabs: seq<Tab>, originOf: string -> Option<string>, origin: string): (r: seq<Tab>)
    ensures forall t :: t in r <==> t in tabs && originOf(t.url) == Some(origin)
  {
    Filter(tabs, (t: Tab) => originOf(t.url) == Some(origin))
  }

  /** `windows.get(id)`. */
  function GetWindow(d: Desktop, id: WindowId): (r: Option<Win>)
    ensures r.Some? <==> id in d.windows
    ensures r.Some? ==> r.value == d.windows[id]
  {
    if id in d.windows then Some(d.windows[id]) else None
  }

  /** `windows.update(id, patch)`: only window `id` changes, and only in the fields the patch names. */
  function UpdateWindow(d: Desktop, id: WindowId, p: Patch): (r: Option<Desktop>)
    ensures r.None? <==> id !in d.windows
    ensures r.Some? ==> && r.value.windows.Keys == d.windows.Keys
                        && r.value.tabs == d.tabs
                        && r.value.nextId == d.nextId
                        && r.value.windows[id].kind == d.windows[id].kind
                        && r.value.windows[id].bounds == ApplyPatch(d.windows[id].bounds, p)
                        && r.value.focused == (if p.focused then Some(id) else d.focused)
    ensures r.Some? ==> forall other | other in d.windows && other != id :: r.value.windows[other] == d.windows[other]
    ensures r.Some? && WellFormed(d) ==> WellFormed(r.value)
  {
    if id !in d.windows then None
    else
      var win := d.windows[id];
      Some(d.(windows := d.windows[id := win.(bounds := ApplyPatch(win.bounds, p))],
              focused := if p.focused then Some(id) else d.focused))
  }

  /** `windows.remove(id)`: the window goes, with its tabs and, if it had it, the focus. */
  function RemoveWindow(d: Desktop, id: WindowId): (r: Option<Desktop>)
    ensures r.None? <==> id !in d.windows
    ensures r.Some? ==> && r.value.windows == d.windows - {id}
                        && r.value.nextId == d.nextId
                        && (forall t :: t in r.value.tabs <==> t in d.tabs && t.windowId != id)
                        && r.value.focused == (if d.focused == Some(id) then None else d.focused)
    ensures r.Some? && WellFormed(d) ==> WellFormed(r.value)
  {
    if id !in d.windows then None
    else
      Some(Desktop(d.windows - {id}, Filter(d.tabs, (t: Tab) => t.windowId != id),
                   if d.focused == Some(id) then None else d.focused, d.nextId))
  }

  /** `windows.create`: a new focused window with one tab, under the id `d.nextId`. */
  function CreateWindow(d: Desktop, kind: WindowType, b: Bounds, url: string): (r: Desktop)
    ensures WellFormed(d) ==> d.nextId !in d.windows
    ensures r.windows.Keys == d.windows.Keys + {d.nextId}
    ensures r.windows[d.nextId] == Win(kind, b)
    ensures r.focused == Some(d.nextId)
    ensures r.tabs == d.tabs + [Tab(d.nextId, url)] && r.nextId == d.nextId + 1
    ensures forall id | id in d.windows && id != d.nextId :: r.windows[id] == d.windows[id]
    ensures WellFormed(d) ==> WellFormed(r)
  {
    Desktop(d.windows[d.nextId := Win(kind, b)], d.tabs + [Tab(d.nextId, url)], Some(d.nextId), d.nextId + 1)
  }
}

=== FILE: wrappers.dfy ===
/** The optional value used wherever the browser answers "not found" or a field may be null. */
module Wrappers {

  datatype Option<+T> = None | Some(value: T) {

    /** The wrapped value, or `default` when there is none. */
    function GetOr(default: T): T {
      match this
      case Some(v) => v
      case None => default
    }
  }
}
